=== FILE: README.md ===
# Entity serialization of the HBnB object store, in Dafny

This project models the entity base of a small Python object store: `BaseModel` and its subclass `Review`.

- `BaseModel` gives every object an `id` and two naive datetimes, `created_at` and `updated_at`. An object is built one of two ways:
  - fresh: it is registered with the storage engine;
  - restored: its attributes are copied from a keyword dictionary, and the two timestamps are parsed from text.
- `to_dict` turns the attributes into a dictionary, writing every datetime as `isoformat()` text.
- `save` refreshes `updated_at` and asks storage to persist.
- `__str__` prints `[<class>] (<id>) <attributes>`.
- `Review` adds three text fields, `place_id`, `user_id` and `text`, each `""` by default, and layers them over the base dictionary.

The modules follow the source:

- `Wrappers` holds `Option` and `Result`.
- `Digits` holds decimal text: `%0Nd` printing and `int()` reading.
- `Timestamps` holds the `datetime` value, its `isoformat` writer and its `strptime("%Y-%m-%dT%H:%M:%S.%f")` reader.
- `BaseModel` holds the entity base.
- `Review` holds the subclass.

An object is an immutable `Instance` made of a class name and a `map<string, Value>` standing for its `__dict__`. A `Value` is either a string or a `DateTime`. Operations are pure functions. The effects the source has are modelled as follows:

- The clock readings and the `uuid4()` text are parameters.
- Calls to the storage engine are returned as a log of `New(class, id)` and `SaveAll` entries.
- Python's `repr` of the attribute dictionary inside `__str__` is a function parameter.

The reader models CPython's `_strptime` in detail:

- `%Y` takes exactly four digits.
- `%m`, `%d`, `%H`, `%M` and `%S` take one or two characters, following the module's regular expressions. `%d` also accepts a leading blank.
- The literal `T` is matched case-insensitively, because the pattern is compiled with `IGNORECASE`.
- `%f` takes one to six digits, padded on the right with zeros, and nothing may follow it.
- `date`/`datetime` then refuse out-of-range values: the `date` constructor refuses a day-of-month past the end of the month (leap years included) and year 0, and the `datetime` constructor refuses second 60 or 61.

The writer is `isoformat`, which writes the `.ffffff` fraction only when the microsecond is not 0. The central result is therefore conditional:

- `Parse(Format(t)) == Some(t)` exactly when `t.microsecond != 0`. Otherwise `Parse` refuses the text.
- As a consequence, `BaseModel(**o.to_dict())` succeeds exactly when both timestamps have a non-zero microsecond and `o` has no attribute named `self`. Otherwise it raises. (An attribute named like a method, such as `to_dict`, is treated as ordinary data; see "Left out".)
- When it succeeds it gives `o` back, unregistered, provided `o` holds no datetime under any key other than `created_at` and `updated_at`. A datetime under another key, which the constructor stores as it is given, comes back as text, so such an object is never given back.
- The same holds for `Review`, whose three fields may hold datetimes as well: they come back from `to_dict` as they are.

The docstring of `to_dict` (models/base_model.py:39-43) says the dictionary includes a `__class__` key. The code computes `cls_name`, never stores it, and adds no such key. The model follows the code, and `BaseModel.ToDict` states that no such key is added.

## Model

| member | source | states |
|---|---|---|
| Timestamps.Parse | models/base_model.py:30 | its contract only bounds the accepted text: at least 16 characters with `-` after the year; what it accepts is stated by `ParseFormat`, `ParseFormatFull` and `FormatFullParse` |
| Timestamps.IsoFormat | models/base_model.py:46 | 19 characters `YYYY-MM-DD<sep>HH:MM:SS` at microsecond 0; otherwise 26, the same text followed by `.` and six digits that read back as the microsecond |
| Timestamps.ParseFormat | models/base_model.py:46 | `strptime` with the restore format reads back the `isoformat` text of a datetime if and only if its microsecond is not 0, and then it yields that same datetime |
| Timestamps.ParseRejectsWholeSeconds | models/base_model.py:30 | text with no fractional part, as `isoformat` writes it at microsecond 0, is always refused by the `.%f` format |
| Timestamps.ParseFormatFull | models/base_model.py:30 | every datetime written with the format's own `.%f` fraction is read back to itself |
| Timestamps.FormatFullParse | models/base_model.py:30 | on full-width text with upper-case `T` and no blank before the day, writing the parsed datetime gives the text back; with `ParseFormatFull` this makes the two inverse bijections |
| Timestamps.FormatInjective | models/base_model.py:46 | `isoformat` maps distinct datetimes to distinct texts, so the microsecond-0 failure is the reader's and not a loss of information |
| BaseModel.Construct | models/base_model.py:11-24 | empty kwargs: fresh id and timestamps, and exactly one `storage.new` call; non-empty kwargs: no storage call, every kwarg decoded into an attribute, and id and timestamps not named in kwargs keep their fresh values; fails exactly when a timestamp kwarg does not parse or a kwarg is named `self`, which clashes with the first parameter of `__init__` and raises `TypeError` before the body runs; that case fails with `BindError`, and a timestamp that does not parse otherwise fails with `ParseError`; the result always has an id and two datetimes |
| BaseModel.Decode | models/base_model.py:29-31 | `created_at` and `updated_at` values are parsed and succeed only for accepted text; every other key's value is kept unchanged |
| BaseModel.Restore | models/base_model.py:26-31 | succeeds exactly when every kwarg decodes, and otherwise fails with `ParseError` (the `strptime` exception); the keys afterwards are the old keys plus the kwargs keys; kwargs values are stored decoded and other attributes are untouched |
| BaseModel.RestorableTimestamps | models/base_model.py:29-30 | only the two timestamp keys can make a restore fail, and each fails exactly when it holds a non-string or text `strptime` refuses |
| BaseModel.RestoreFromDict | models/base_model.py:28-31 | the item-by-item `setattr` loop, in any key order, computes the same result or error as the whole-dictionary definition |
| BaseModel.FreshOrdered | models/base_model.py:19-20 | with a clock that does not run backwards, a freshly built object has `created_at <= updated_at` |
| BaseModel.Save | models/base_model.py:33-36 | `updated_at` becomes the clock value; no other attribute changes; exactly one `storage.save` call; `created_at <= updated_at` is kept when the clock does not run backwards |
| BaseModel.ToDict | models/base_model.py:38-48 | exactly the instance's keys, with no `__class__` key added; every datetime becomes its `isoformat` text, every string passes through, and no datetime is left |
| BaseModel.RoundTrip | models/base_model.py:11-48 | restoring from `to_dict(o)` succeeds if and only if both timestamps have a non-zero microsecond and no attribute is named `self` (which raises `TypeError`); when it succeeds and `o` holds no datetime outside the two timestamp keys, it reproduces `o` exactly and registers nothing |
| BaseModel.RoundTripNeedsPlain | models/base_model.py:29-31 | an object holding a datetime under any other key is never given back by restoring from `to_dict(o)`, since that value returns as text |
| BaseModel.ToDictFixed | models/base_model.py:45-48 | the corrected dictionary: the same keys and strings, and datetimes written with the full `.%f` fraction |
| BaseModel.RoundTripFixed | models/base_model.py:45-48 | with the corrected dictionary, restoring reproduces every object whose only datetimes are its timestamps and that has no attribute named `self`, whatever their microsecond; with a `self` attribute it raises `TypeError` |
| BaseModel.Describe | models/base_model.py:50-53 | the whole text: `[`, the class name, `] (`, the id text, then `) ` followed by the `repr` of the attribute dictionary; that all three parts can be read back is stated by `DescribeHeader` |
| BaseModel.DescribeHeader | models/base_model.py:50-53 | `__str__` is `[<class>] (<id>) <repr of __dict__>`: the class name, the id text and the attribute rendering can all be read back from it |
| Review.Construct | models/review.py:15-25 | succeeds exactly when the base constructor does, so a kwarg named `self` raises here too, with the same storage calls and the same identity and timestamps, and fails with the base constructor's error; each field equals its kwarg when given and `""` otherwise; the result is a well-formed review |
| Review.SetFields | models/review.py:23-25 | the three fields are added or replaced with their keyword argument or `""`, and every other attribute is unchanged |
| Review.SetFieldsAgain | models/review.py:23-25 | assigning the three fields the values they already hold leaves the object unchanged |
| Review.ToDict | models/review.py:32-40 | keeps every key of the base dictionary without removing or renaming any; other keys keep the base values, and the three fields map to the instance's current values |
| Review.Describe | models/review.py:27-30 | the description of a `Review` is `[Review] (`, its id text, `) ` and the `repr` of its attribute dictionary |
| Review.DescribeNamesReview | models/review.py:27-30 | the class name `Review`, the id text and the attribute rendering can be read back from a review's description |
| Review.RoundTrip | models/review.py:15-40 | for a well-formed review whose datetimes sit only in the two timestamps or the three fields, and whose timestamps both have a non-zero microsecond, `Review(**r.to_dict())` gives `r` back, unregistered; if `r` has an attribute named `self` it raises `TypeError` instead |
| Review.RoundTripNeedsPlain | models/review.py:32-40 | a review holding a datetime under a key other than the timestamps and the three fields is never given back by `Review(**r.to_dict())`, since that value returns as text |
| Review.RoundTripFails | models/review.py:22 | when either timestamp has microsecond 0, `Review(**r.to_dict())` fails in the base constructor, with the `strptime` error (`ParseError`) unless an attribute named `self` makes it a `BindError` |
| Review.ConstructFromFields | models/review.py:22-25 | kwargs naming exactly the three fields give the fresh identity and timestamps plus those fields, with no registration |
| Review.PlaceOnlyNotRegistered | models/review.py:22-25 | `Review(place_id="p1")` is not registered, its id and timestamps are the fresh ones, and `user_id` and `text` are `""` |
| Review.ToDictText | models/review.py:34-39 | when the three fields hold text, the `update` with them leaves the base dictionary exactly as it was |
| Review.TextFieldsSerialized | models/review.py:22-40 | a review built from text values for exactly its three fields serializes to its id, its two `isoformat` timestamps and those values, with no class tag |
| Review.ThreeFieldsSerialized | models/review.py:32-40 | a review built from `place_id="p1", user_id="u1", text="ok"` serializes to exactly its id, its two `isoformat` texts and those three values |

## Left out

- The storage engine (`models.storage`: registry, key format, JSON file, reload) is not part of this model. Only the calls made to it are logged.
- `uuid4()` randomness is left out. The id is a parameter, so identity uniqueness is not stated.
- `datetime.now()` is left out. Each of the two readings in the constructor, and the one in `save`, is a parameter. `created_at <= updated_at` is stated only under a non-decreasing clock, and only for the fresh path and `save`. A restored object carries whatever timestamps its dictionary held.
- Python's `repr` of the attribute dictionary is a parameter of `Describe`.
- Attribute order is not modelled. Python's `__dict__` keeps insertion order, and that order decides the text of `__str__` and the key order of `to_dict` and its `update`. The model keeps attributes in an unordered `map`, and `repr` is taken over that map, so two objects that differ only in attribute order get the same description.
- `*args` is ignored by the constructors and is not modelled.
- Attribute values other than strings and naive datetimes are not modelled. Timezone-aware datetimes are not modelled either.
- `setattr` with special names such as `__class__` is treated as an ordinary attribute, and so are attributes named like the methods (`to_dict`, `save`). In Python such an attribute shadows the method on the instance, so a later `o.to_dict()` or `o.save()` raises instead of running; the model calls the class's operation regardless. The one keyword that raises before `setattr` is reached, `self`, is modelled as `BindError`. Other binding errors of the Python call cannot arise from a keyword dictionary and are not modelled.
- Objects are immutable values. `save` returns the updated object instead of mutating it in place.
- BaseModel.Restore: a non-string timestamp value (Python's `TypeError`) and refused text (`ValueError`) are one `ParseError`. Which of two bad timestamps is reported first is not modelled.
- Timestamps.Parse: its own contract only bounds the accepted text. What it accepts is stated by the round-trip lemmas. Unicode decimal digits, which Python's `\d` also matches, are not modelled: only ASCII digits are.
- Review.ToDict and BaseModel.Describe require their attributes to be present (`self.place_id`, `self.id`). Python raises `AttributeError` otherwise, which cannot happen to an object built by the constructors.
- web_static/w3c_validator.py is not part of this model: it is HTTP, file and console plumbing.

## Findings

| source | as written | input that shows it | evidently intended | confidence | as-written member | corrected member |
|---|---|---|---|---|---|---|
| models/base_model.py:46 | `to_dict` writes datetimes with `isoformat()`, which omits the fraction when the microsecond is 0, but the restore path (line 30) parses them with `"%Y-%m-%dT%H:%M:%S.%f"`, which requires one | `BaseModel(**o.to_dict())` where `o.created_at == datetime(2017, 9, 28, 21, 3, 2)` raises `ValueError` | `to_dict` output restores every object, whatever its microsecond, e.g. by writing `isoformat(timespec="microseconds")`, which always writes a four-digit year and six fraction digits | not executed | BaseModel.RoundTrip | BaseModel.RoundTripFixed |

=== FILE: base_model.dfy ===
/** The entity base class: an id, two timestamps, construction either fresh or from a
    dictionary, `to_dict`, `save` and `__str__`. Attributes are the instance's
    `__dict__`; the storage engine is seen only through the calls made to it. */
module BaseModel {
  import opened Wrappers
  import opened Timestamps

  /** An attribute value: a string or a naive datetime. */
  datatype Value = Str(s: string) | Time(t: DateTime)

  type Attrs = map<string, Value>

  /** A live object: its class name and its `__dict__`. */
  datatype Instance = Instance(typeName: string, attrs: Attrs)

  /** A call made to the storage engine: `storage.new(obj)` or `storage.save()`. */
  datatype StorageCall = New(typeName: string, id: string) | SaveAll

  /** An object together with the storage calls made while producing it. */
  datatype Traced = Traced(obj: Instance, calls: seq<StorageCall>)

  /** Why construction raised: `strptime` met a timestamp key holding text not in the
      format, or no text at all (`ParseError`); or a keyword argument named `self`
      clashed with the first parameter of `__init__(self, *args, **kwargs)` before its
      body ran (`BindError`, Python's `TypeError`). */
  datatype Error = ParseError | BindError

  const IdKey := "id"
  const CreatedKey := "created_at"
  const UpdatedKey := "updated_at"
  const ClassKey := "__class__"
  const SelfKey := "self"

  /** The keys whose values the restore path parses. */
  const TimestampKeys := {CreatedKey, UpdatedKey}

  /** What every constructed object has: an id and two datetimes. */
  predicate WellFormed(o: Instance) {
    && IdKey in o.attrs && CreatedKey in o.attrs && UpdatedKey in o.attrs
    && o.attrs[CreatedKey].Time? && o.attrs[UpdatedKey].Time?
  }

  /** `created_at <= updated_at`. */
  predicate Ordered(o: Instance)
    requires WellFormed(o)
  {
    NotAfter(o.attrs[CreatedKey].t, o.attrs[UpdatedKey].t)
  }

  /** The attributes a fresh object has before anything else is assigned. */
  function Fresh(typeName: string, id: string, created: DateTime, updated: DateTime): Instance {
    Instance(typeName, map[IdKey := Str(id), CreatedKey := Time(created), UpdatedKey := Time(updated)])
  }

  /** The three names a fresh object starts with are pairwise different. */
  lemma KeysDistinct()
    ensures IdKey !in TimestampKeys && CreatedKey != UpdatedKey
  {
    assert |IdKey| != |CreatedKey| && |IdKey| != |UpdatedKey| && CreatedKey[0] != UpdatedKey[0];
  }

  /** A fresh object holds exactly its id and its two clock readings. */
  lemma FreshFacts(typeName: string, id: string, created: DateTime, updated: DateTime)
    ensures var f := Fresh(typeName, id, created, updated);
      && f.typeName == typeName && WellFormed(f)
      && f.attrs.Keys == {IdKey, CreatedKey, UpdatedKey}
      && f.attrs[IdKey] == Str(id) && f.attrs[CreatedKey] == Time(created)
      && f.attrs[UpdatedKey] == Time(updated)
  {
    KeysDistinct();
  }

  // ---------------------------------------------------------------------------
  // Restore path
  // ---------------------------------------------------------------------------

  /** The value `setattr` receives for `key`: timestamp keys go through `strptime`
      (which raises unless given text in the format), every other value is kept. */
  function Decode(key: string, v: Value): (r: Option<Value>)
    ensures key !in TimestampKeys ==> r == Some(v)
    ensures key in TimestampKeys ==> (r.Some? <==> v.Str? && Parse(v.s).Some?)
    ensures key in TimestampKeys && r.Some? ==> r == Some(Time(Parse(v.s).value))
  {
    if key !in TimestampKeys then Some(v)
    else match v
      case Time(_) => None
      case Str(s) => match Parse(s)
        case None => None
        case Some(t) => Some(Time(t))
  }

  /** Every value of `kwargs` survives `Decode`. */
  predicate Restorable(kwargs: Attrs) {
    forall k :: k in kwargs ==> Decode(k, kwargs[k]).Some?
  }

  /** Only the timestamp keys can stop a restore: it goes through exactly when each of
      them that is present holds text `strptime` accepts. */
  lemma RestorableTimestamps(kwargs: Attrs)
    ensures Restorable(kwargs) <==>
      (CreatedKey in kwargs ==> kwargs[CreatedKey].Str? && Parse(kwargs[CreatedKey].s).Some?)
      && (UpdatedKey in kwargs ==> kwargs[UpdatedKey].Str? && Parse(kwargs[UpdatedKey].s).Some?)
  {
    if !Restorable(kwargs) {
      var k :| k in kwargs && Decode(k, kwargs[k]).None?;
      assert k in TimestampKeys;
    }
  }

  /** `__restore_from_dict`: every key of `kwargs` becomes an attribute, parsed when it is
      a timestamp key; attributes not named in `kwargs` keep their values. The first
      unparsable timestamp raises, and the half-built object is lost with it. */
  function Restore(o: Instance, kwargs: Attrs): (r: Result<Instance, Error>)
    ensures r.Success? <==> Restorable(kwargs)
    ensures r.Failure? ==> r.error == ParseError
    ensures r.Success? ==> r.value.typeName == o.typeName
    ensures r.Success? ==> r.value.attrs.Keys == o.attrs.Keys + kwargs.Keys
    ensures r.Success? ==> forall k :: k in kwargs && k !in TimestampKeys ==>
                             r.value.attrs[k] == kwargs[k]
    ensures r.Success? ==> forall k :: k in kwargs && k in TimestampKeys ==>
                             r.value.attrs[k] == Time(Parse(kwargs[k].s).value)
    ensures r.Success? ==> forall k :: k in o.attrs && k !in kwargs ==>
                             r.value.attrs[k] == o.attrs[k]
    ensures r.Success? ==> forall k :: k in kwargs ==> Some(r.value.attrs[k]) == Decode(k, kwargs[k])
  {
    if !Restorable(kwargs) then Failure(ParseError)
    else Success(o.(attrs := o.attrs + map k | k in kwargs :: Decode(k, kwargs[k]).value))
  }

  /** The `for key, value in kwargs.items()` loop of `__restore_from_dict`, one
      `setattr` at a time, in whatever order the keys come. */
  method RestoreFromDict(o: Instance, kwargs: Attrs) returns (r: Result<Instance, Error>)
    ensures r == Restore(o, kwargs)
  {
    var attrs := o.attrs;
    var todo := kwargs.Keys;
    while todo != {}
      invariant todo <= kwargs.Keys
      invariant forall k :: k in kwargs && k !in todo ==> Decode(k, kwargs[k]).Some?
      invariant attrs.Keys == o.attrs.Keys + (kwargs.Keys - todo)
      invariant forall k :: k in attrs ==>
                  attrs[k] == if k in kwargs && k !in todo then Decode(k, kwargs[k]).value
                              else o.attrs[k]
      decreases todo
    {
      var key :| key in todo;
      match Decode(key, kwargs[key]) {
        case None =>
          return Failure(ParseError);
        case Some(v) =>
          attrs := attrs[key := v];
      }
      todo := todo - {key};
    }
    assert attrs == o.attrs + map k | k in kwargs :: Decode(k, kwargs[k]).value;
    r := Success(o.(attrs := attrs));
  }

  // ---------------------------------------------------------------------------
  // Construction
  // ---------------------------------------------------------------------------

  /** `BaseModel.__init__(**kwargs)` for an object of class `typeName`, with `id` the text
      of `uuid4()` and `created`, `updated` the two readings of `datetime.now()`. An
      empty `kwargs` registers the fresh object with storage; any other `kwargs` is
      restored over the fresh attributes and registers nothing. */
  function Construct(typeName: string, kwargs: Attrs, id: string, created: DateTime,
                     updated: DateTime): (r: Result<Traced, Error>)
    ensures |kwargs| == 0 ==> r.Success? && r.value.calls == [New(typeName, id)]
    ensures |kwargs| == 0 ==> r.value.obj.attrs.Keys == {IdKey, CreatedKey, UpdatedKey}
    ensures |kwargs| != 0 && r.Success? ==> r.value.calls == []
    ensures SelfKey in kwargs ==> r == Failure(BindError)
    ensures SelfKey !in kwargs && !Restorable(kwargs) ==> r == Failure(ParseError)
    ensures r.Failure? <==> SelfKey in kwargs || !Restorable(kwargs)
    ensures r.Success? ==> r.value.obj.typeName == typeName && WellFormed(r.value.obj)
    ensures r.Success? ==> r.value.obj.attrs.Keys == {IdKey, CreatedKey, UpdatedKey} + kwargs.Keys
    ensures r.Success? ==> forall k :: k in kwargs ==>
                             Some(r.value.obj.attrs[k]) == Decode(k, kwargs[k])
    ensures r.Success? && IdKey !in kwargs ==> r.value.obj.attrs[IdKey] == Str(id)
    ensures r.Success? && CreatedKey !in kwargs ==> r.value.obj.attrs[CreatedKey] == Time(created)
    ensures r.Success? && UpdatedKey !in kwargs ==> r.value.obj.attrs[UpdatedKey] == Time(updated)
  {
    var initial := Fresh(typeName, id, created, updated);
    FreshFacts(typeName, id, created, updated);
    if SelfKey in kwargs then Failure(BindError)
    else if |kwargs| != 0 then
      match Restore(initial, kwargs)
      case Failure(e) => Failure(e)
      case Success(o) => RestoreWellFormed(initial, kwargs); Success(Traced(o, []))
    else
      Success(Traced(initial, [New(typeName, id)]))
  }

  /** Restoring keeps an id and two datetimes: a timestamp named in `kwargs` is replaced
      by its parsed value, which is again a datetime. */
  lemma RestoreWellFormed(o: Instance, kwargs: Attrs)
    requires WellFormed(o) && Restorable(kwargs)
    ensures Restore(o, kwargs).Success? && WellFormed(Restore(o, kwargs).value)
  {
    var r := Restore(o, kwargs).value;
    KeysDistinct();
    if CreatedKey in kwargs {
      assert Some(r.attrs[CreatedKey]) == Decode(CreatedKey, kwargs[CreatedKey]);
    }
    if UpdatedKey in kwargs {
      assert Some(r.attrs[UpdatedKey]) == Decode(UpdatedKey, kwargs[UpdatedKey]);
    }
  }

  /** With a clock that does not run backwards, a fresh object was not updated before it
      was created. */
  lemma FreshOrdered(typeName: string, id: string, created: DateTime, updated: DateTime)
    requires NotAfter(created, updated)
    ensures var r := Construct(typeName, map[], id, created, updated);
      r.Success? && Ordered(r.value.obj)
  {
  }

  // ---------------------------------------------------------------------------
  // save, to_dict, __str__
  // ---------------------------------------------------------------------------

  /** `save()`: `updated_at` becomes the clock reading `now`, then storage saves. */
  function Save(o: Instance, now: DateTime): (r: Traced)
    ensures r.calls == [SaveAll]
    ensures r.obj.typeName == o.typeName
    ensures r.obj.attrs.Keys == o.attrs.Keys + {UpdatedKey}
    ensures r.obj.attrs[UpdatedKey] == Time(now)
    ensures forall k :: k in o.attrs && k != UpdatedKey ==> r.obj.attrs[k] == o.attrs[k]
    ensures WellFormed(o) ==> WellFormed(r.obj)
    ensures WellFormed(o) && Ordered(o) && NotAfter(o.attrs[UpdatedKey].t, now) ==> Ordered(r.obj)
  {
    Traced(o.(attrs := o.attrs[UpdatedKey := Time(now)]), [SaveAll])
  }

  /** One value of a dictionary: datetimes become text, other values pass through. */
  function Render(v: Value, format: DateTime -> string): Value {
    match v
    case Time(t) => Str(format(t))
    case Str(_) => v
  }

  /** The instance's attributes with every datetime written by `format`. */
  function RenderAll(o: Instance, format: DateTime -> string): Attrs {
    map k | k in o.attrs :: Render(o.attrs[k], format)
  }

  /** `to_dict()`: the instance's attributes with every datetime rendered by `isoformat`.
      The class name is computed but never stored, so no `__class__` key is added. */
  function ToDict(o: Instance): (d: Attrs)
    ensures d.Keys == o.attrs.Keys
    ensures ClassKey in d <==> ClassKey in o.attrs
    ensures forall k :: k in d ==> d[k].Str?
    ensures forall k :: k in o.attrs && o.attrs[k].Str? ==> d[k] == o.attrs[k]
    ensures forall k :: k in o.attrs && o.attrs[k].Time? ==> d[k] == Str(Format(o.attrs[k].t))
  {
    RenderAll(o, Format)
  }

  /** A fresh object extended with text attributes renders as its id, its two timestamps
      written by `isoformat`, and that text. */
  lemma ToDictFresh(typeName: string, id: string, created: DateTime, updated: DateTime, extra: Attrs)
    requires IdKey !in extra && CreatedKey !in extra && UpdatedKey !in extra
    requires forall k :: k in extra ==> extra[k].Str?
    ensures ToDict(Instance(typeName, Fresh(typeName, id, created, updated).attrs + extra))
      == map[IdKey := Str(id), CreatedKey := Str(Format(created)), UpdatedKey := Str(Format(updated))]
         + extra
  {
    var initial := Fresh(typeName, id, created, updated);
    RenderUnion(typeName, initial.attrs, extra, Format);
    RenderText(typeName, extra, Format);
    RenderFresh(typeName, id, created, updated);
  }

  /** Rendering works key by key, so it distributes over a union of attributes. */
  lemma RenderUnion(typeName: string, a: Attrs, b: Attrs, format: DateTime -> string)
    ensures RenderAll(Instance(typeName, a + b), format)
      == RenderAll(Instance(typeName, a), format) + RenderAll(Instance(typeName, b), format)
  {
  }

  /** Text attributes render as themselves. */
  lemma RenderText(typeName: string, a: Attrs, format: DateTime -> string)
    requires forall k :: k in a ==> a[k].Str?
    ensures RenderAll(Instance(typeName, a), format) == a
  {
  }

  /** A fresh object renders as its id and its two clock readings as `isoformat` text. */
  lemma RenderFresh(typeName: string, id: string, created: DateTime, updated: DateTime)
    ensures RenderAll(Fresh(typeName, id, created, updated), Format)
      == map[IdKey := Str(id), CreatedKey := Str(Format(created)), UpdatedKey := Str(Format(updated))]
  {
    FreshFacts(typeName, id, created, updated);
  }

  /** `to_dict()` as it was evidently meant to work with the restore path: datetimes are
      written with `isoformat(timespec="microseconds")`, which always has a fraction. */
  function ToDictFixed(o: Instance): (d: Attrs)
    ensures d.Keys == o.attrs.Keys
    ensures forall k :: k in o.attrs && o.attrs[k].Str? ==> d[k] == o.attrs[k]
    ensures forall k :: k in o.attrs && o.attrs[k].Time? ==> d[k] == Str(FormatFull(o.attrs[k].t))
  {
    RenderAll(o, FormatFull)
  }

  // ---------------------------------------------------------------------------
  // Round trip through a dictionary
  // ---------------------------------------------------------------------------

  /** The only datetimes are the two timestamps: a datetime under any other key comes
      back from a dictionary as text, since the restore path parses only those two. */
  predicate PlainAttrs(o: Instance) {
    forall k :: k in o.attrs && o.attrs[k].Time? ==> k in TimestampKeys
  }

  /** Both timestamps have a non-zero microsecond, so `isoformat` writes a fraction. */
  predicate HasFraction(o: Instance)
    requires WellFormed(o)
  {
    o.attrs[CreatedKey].t.microsecond != 0 && o.attrs[UpdatedKey].t.microsecond != 0
  }

  /** Each timestamp of an object with `HasFraction` is a datetime with a fraction. */
  lemma TimestampFraction(o: Instance, k: string)
    requires WellFormed(o) && HasFraction(o) && k in TimestampKeys
    ensures k in o.attrs && o.attrs[k].Time? && o.attrs[k].t.microsecond != 0
  {
  }

  /** `format` writes both timestamps of `o` in text `strptime` reads back. */
  predicate ReadsBack(o: Instance, format: DateTime -> string)
    requires WellFormed(o)
  {
    && Parse(format(o.attrs[CreatedKey].t)) == Some(o.attrs[CreatedKey].t)
    && Parse(format(o.attrs[UpdatedKey].t)) == Some(o.attrs[UpdatedKey].t)
  }

  /** A value rendered by `format` decodes back to itself under its key when it is text
      under an ordinary key, or a datetime under a timestamp key that `format` writes
      readably. */
  lemma DecodeRender(k: string, v: Value, format: DateTime -> string)
    requires v.Time? <==> k in TimestampKeys
    requires v.Time? ==> Parse(format(v.t)) == Some(v.t)
    ensures Decode(k, Render(v, format)) == Some(v)
  {
    if v.Time? {
      assert Render(v, format) == Str(format(v.t));
    }
  }

  /** A rendering whose timestamps parse back to the originals decodes to the object. */
  lemma RenderedRestorable(o: Instance, format: DateTime -> string)
    requires WellFormed(o) && PlainAttrs(o) && ReadsBack(o, format)
    ensures forall k :: k in o.attrs ==> Decode(k, RenderAll(o, format)[k]) == Some(o.attrs[k])
  {
    forall k | k in o.attrs
      ensures Decode(k, RenderAll(o, format)[k]) == Some(o.attrs[k])
    {
      DecodeRender(k, o.attrs[k], format);
    }
  }

  /** A dictionary whose every entry decodes to the matching attribute of `o`, and which
      names every attribute `initial` has, restores `initial` into `o`. */
  lemma RestoreDecoded(initial: Instance, o: Instance, d: Attrs)
    requires initial.typeName == o.typeName
    requires initial.attrs.Keys <= o.attrs.Keys && d.Keys == o.attrs.Keys
    requires forall k :: k in d ==> Decode(k, d[k]) == Some(o.attrs[k])
    ensures Restore(initial, d) == Success(o)
  {
    assert Restorable(d);
    var decoded := map k | k in d :: Decode(k, d[k]).value;
    assert decoded == o.attrs;
    assert initial.attrs + decoded == o.attrs;
  }

  /** Constructing from a dictionary that decodes entry by entry to the attributes of a
      well-formed `o` without a `self` attribute gives `o` back and registers nothing. */
  lemma ConstructDecoded(o: Instance, d: Attrs, id: string, created: DateTime, updated: DateTime)
    requires WellFormed(o) && SelfKey !in o.attrs && d.Keys == o.attrs.Keys
    requires forall k :: k in d ==> Decode(k, d[k]) == Some(o.attrs[k])
    ensures Construct(o.typeName, d, id, created, updated) == Success(Traced(o, []))
  {
    FreshFacts(o.typeName, id, created, updated);
    RestoreDecoded(Fresh(o.typeName, id, created, updated), o, d);
    assert IdKey in d;
  }

  /** Restoring the rendering of an object gives the object back, provided both
      timestamps of the rendering parse back to the originals and no attribute is named
      `self`. */
  lemma RestoreRendered(o: Instance, format: DateTime -> string, id: string,
                        created: DateTime, updated: DateTime)
    requires WellFormed(o) && SelfKey !in o.attrs && PlainAttrs(o) && ReadsBack(o, format)
    ensures Construct(o.typeName, RenderAll(o, format), id, created, updated) == Success(Traced(o, []))
  {
    RenderedRestorable(o, format);
    ConstructDecoded(o, RenderAll(o, format), id, created, updated);
  }

  /** `Construct(**to_dict())` succeeds exactly when both timestamps have a fraction and
      no attribute is named `self`; otherwise `strptime` or the call itself raises. When it
      succeeds and the only datetimes are the two timestamps, the object comes back
      unchanged and unregistered. */
  lemma RoundTrip(o: Instance, id: string, created: DateTime, updated: DateTime)
    requires WellFormed(o)
    ensures var r := Construct(o.typeName, ToDict(o), id, created, updated);
      r.Success? <==> HasFraction(o) && SelfKey !in o.attrs
    ensures SelfKey in o.attrs ==>
      Construct(o.typeName, ToDict(o), id, created, updated) == Failure(BindError)
    ensures HasFraction(o) && PlainAttrs(o) && SelfKey !in o.attrs ==>
      Construct(o.typeName, ToDict(o), id, created, updated) == Success(Traced(o, []))
  {
    ParseFormat(o.attrs[CreatedKey].t);
    ParseFormat(o.attrs[UpdatedKey].t);
    RestorableTimestamps(ToDict(o));
    if HasFraction(o) && PlainAttrs(o) && SelfKey !in o.attrs {
      RestoreRendered(o, Format, id, created, updated);
    }
  }

  /** A datetime under any other key comes back from `to_dict` as text, so such an
      object is never given back by `Construct(**to_dict())`. */
  lemma RoundTripNeedsPlain(o: Instance, id: string, created: DateTime, updated: DateTime)
    requires WellFormed(o) && !PlainAttrs(o)
    ensures Construct(o.typeName, ToDict(o), id, created, updated) != Success(Traced(o, []))
  {
    var k :| k in o.attrs && o.attrs[k].Time? && k !in TimestampKeys;
    var r := Construct(o.typeName, ToDict(o), id, created, updated);
    if r.Success? {
      assert Some(r.value.obj.attrs[k]) == Decode(k, ToDict(o)[k]);
      assert r.value.obj.attrs[k].Str?;
    }
  }

  /** With the corrected rendering the round trip holds for every timestamp; only an
      attribute named `self` still makes the call raise. */
  lemma RoundTripFixed(o: Instance, id: string, created: DateTime, updated: DateTime)
    requires WellFormed(o) && PlainAttrs(o)
    ensures SelfKey !in o.attrs ==>
      Construct(o.typeName, ToDictFixed(o), id, created, updated) == Success(Traced(o, []))
    ensures SelfKey in o.attrs ==>
      Construct(o.typeName, ToDictFixed(o), id, created, updated) == Failure(BindError)
  {
    if SelfKey !in o.attrs {
      ParseFormatFull(o.attrs[CreatedKey].t);
      ParseFormatFull(o.attrs[UpdatedKey].t);
      RestoreRendered(o, FormatFull, id, created, updated);
    }
  }

  /** The text `"{}".format(v)` gives: `str(datetime)` separates date and time by a blank. */
  function Text(v: Value): string {
    match v
    case Str(s) => s
    case Time(t) => IsoFormat(t, ' ')
  }

  /** `__str__`: `"[<class>] (<id>) <repr of __dict__>"`; `repr` stands for Python's
      rendering of the attribute dictionary. */
  function Describe(o: Instance, repr: Attrs -> string): (r: string)
    requires IdKey in o.attrs
    ensures |r| >= |o.typeName| + |Text(o.attrs[IdKey])| + 6 && r[0] == '['
    ensures r[1..|o.typeName| + 1] == o.typeName
    ensures r[|o.typeName| + 1..|o.typeName| + 4] == "] ("
    ensures r[|o.typeName| + 4..|o.typeName| + 4 + |Text(o.attrs[IdKey])|] == Text(o.attrs[IdKey])
    ensures r[|o.typeName| + 4 + |Text(o.attrs[IdKey])|..] == ") " + repr(o.attrs)
  {
    HeaderSlices(o.typeName, Text(o.attrs[IdKey]), repr(o.attrs));
    "[" + (o.typeName + ("] (" + (Text(o.attrs[IdKey]) + (") " + repr(o.attrs)))))
  }

  /** Where the class name, the id and the separators sit in a description. */
  lemma HeaderSlices(name: string, id: string, tail: string)
    ensures var s := "[" + (name + ("] (" + (id + (") " + tail))));
      && |s| >= |name| + |id| + 6 && s[0] == '[' && s[1..|name| + 1] == name
      && s[|name| + 1..|name| + 4] == "] (" && s[|name| + 4..|name| + 4 + |id|] == id
      && s[|name| + 4 + |id|..] == ") " + tail
  {
    var s := "[" + (name + ("] (" + (id + (") " + tail))));
    var rest := id + (") " + tail);
    assert s[1..] == name + ("] (" + rest);
    assert s[|name| + 4..] == rest;
    assert rest[|id|..] == ") " + tail;
  }

  /** The position of the first `c` in `s`, or `|s|` when there is none. */
  function IndexOf(s: string, c: char): (i: nat)
    ensures i <= |s| && (i < |s| ==> s[i] == c)
    ensures forall j :: 0 <= j < i ==> s[j] != c
  {
    if s == [] || s[0] == c then 0 else 1 + IndexOf(s[1..], c)
  }

  /** Reads a description back into its class name, its id and the attribute rendering
      that follows the head `"[<class>] (<id>) "`, splitting at the first `]` and the
      first `)` after it. */
  function ReadHeader(s: string): Option<(string, string, string)> {
    if |s| == 0 || s[0] != '[' then None
    else
      var close := 1 + IndexOf(s[1..], ']');
      if close + 3 > |s| || s[close..close + 3] != "] (" then None
      else
        var rest := s[close + 3..];
        var end := IndexOf(rest, ')');
        if end + 2 > |rest| || rest[end..end + 2] != ") " then None
        else Some((s[1..close], rest[..end], rest[end + 2..]))
  }

  /** A description names its object and renders its attributes: when the class name
      has no `]` and the id no `)`, the class name, the id text and `repr(__dict__)` can
      all be read back from it. */
  lemma DescribeHeader(o: Instance, repr: Attrs -> string)
    requires IdKey in o.attrs
    requires ']' !in o.typeName && ')' !in Text(o.attrs[IdKey])
    ensures ReadHeader(Describe(o, repr)) == Some((o.typeName, Text(o.attrs[IdKey]), repr(o.attrs)))
  {
    var name, id, tail := o.typeName, Text(o.attrs[IdKey]), repr(o.attrs);
    var rest := id + (") " + tail);
    var s := Describe(o, repr);
    assert s == "[" + (name + ("] (" + rest));
    ReadOpen(name, rest);
    ReadClose(id, tail);
  }

  /** The first part of a header: the class name up to the first `]`, then `"] ("`. */
  lemma ReadOpen(name: string, rest: string)
    requires ']' !in name
    ensures var s := "[" + (name + ("] (" + rest));
      && IndexOf(s[1..], ']') == |name| && s[1..|name| + 1] == name
      && s[|name| + 1..|name| + 4] == "] (" && s[|name| + 4..] == rest
  {
    var s := "[" + (name + ("] (" + rest));
    assert s[1..] == name + ("] (" + rest);
    IndexOfAbsent(name, ']', "] (" + rest);
  }

  /** The second part of a header: the id up to the first `)`, then `") "`. */
  lemma ReadClose(id: string, tail: string)
    requires ')' !in id
    ensures var rest := id + (") " + tail);
      && IndexOf(rest, ')') == |id| && rest[..|id|] == id && rest[|id|..|id| + 2] == ") "
      && rest[|id| + 2..] == tail
  {
    IndexOfAbsent(id, ')', ") " + tail);
  }

  /** The first `c` of `a + b` is found in `b` when `a` has none. */
  lemma {:induction false} IndexOfAbsent(a: string, c: char, b: string)
    requires c !in a && |b| > 0 && b[0] == c
    ensures IndexOf(a + b, c) == |a|
  {
    if a != [] {
      assert (a + b)[1..] == a[1..] + b;
      IndexOfAbsent(a[1..], c, b);
    }
  }
}

=== FILE: digits.dfy ===
/** Decimal digit strings: the zero-padded printing of `%0Nd` and the reading of `int()`. */
module Digits {

  predicate IsDigit(c: char) {
    '0' <= c <= '9'
  }

  predicate AllDigits(s: string) {
    forall i :: 0 <= i < |s| ==> IsDigit(s[i])
  }

  function Pow10(n: nat): (p: nat)
    ensures p >= 1
  {
    if n == 0 then 1 else 10 * Pow10(n - 1)
  }

  function DigitChar(d: nat): (c: char)
    requires d < 10
    ensures IsDigit(c)
  {
    (d + '0' as int) as char
  }

  function DigitValue(c: char): (d: nat)
    requires IsDigit(c)
    ensures d < 10
  {
    c as int - '0' as int
  }

  /** The value of a string of decimal digits, read most significant digit first. */
  function ValueOf(s: string): (n: nat)
    requires AllDigits(s)
    ensures n < Pow10(|s|)
  {
    if s == [] then 0 else ValueOf(s[..|s| - 1]) * 10 + DigitValue(s[|s| - 1])
  }

  /** `n` printed in exactly `width` digits, with leading zeros: printf's `%0<width>d`
      for a number that fits in `width` digits. */
  function Pad(n: nat, width: nat): (s: string)
    requires n < Pow10(width)
    ensures |s| == width && AllDigits(s)
  {
    if width == 0 then [] else Pad(n / 10, width - 1) + [DigitChar(n % 10)]
  }

  /** Reading a padded number gives the number back. */
  lemma {:induction false} ValueOfPad(n: nat, width: nat)
    requires n < Pow10(width)
    ensures ValueOf(Pad(n, width)) == n
  {
    if width > 0 {
      var s := Pad(n, width);
      assert s[..|s| - 1] == Pad(n / 10, width - 1);
      ValueOfPad(n / 10, width - 1);
    }
  }

  /** Printing the value of a digit string in its own width gives the string back. */
  lemma {:induction false} PadValueOf(s: string)
    requires AllDigits(s)
    ensures Pad(ValueOf(s), |s|) == s
  {
    if s != [] {
      var init := s[..|s| - 1];
      var n := ValueOf(s);
      assert n / 10 == ValueOf(init) && n % 10 == DigitValue(s[|s| - 1]);
      PadValueOf(init);
      assert s == init + [s[|s| - 1]];
    }
  }

  /** The two characters of a two-digit padded number. */
  lemma PadTwo(n: nat)
    requires n < 100
    ensures Pad(n, 2) == [DigitChar(n / 10), DigitChar(n % 10)]
  {
    assert n / 100 == 0 && (n / 10) % 10 == n / 10;
    assert Pad(n / 10, 1) == [DigitChar(n / 10)];
  }
}

=== FILE: review.dfy ===
/** The Review entity: the base object plus three text fields, `place_id`, `user_id` and
    `text`, each `""` unless the constructor's keyword arguments give it. */
module Review {
  import opened Wrappers
  import opened Timestamps
  import BaseModel

  const TypeName := "Review"
  const PlaceKey := "place_id"
  const UserKey := "user_id"
  const TextKey := "text"
  const Fields := {PlaceKey, UserKey, TextKey}

  /** The three field names differ from each other and from the base's names. */
  lemma KeysDistinct()
    ensures PlaceKey != UserKey && PlaceKey != TextKey && UserKey != TextKey
    ensures Fields !! {BaseModel.IdKey, BaseModel.CreatedKey, BaseModel.UpdatedKey, BaseModel.SelfKey}
  {
    assert |PlaceKey| == 8 && |UserKey| == 7 && |TextKey| == 4 && TextKey[0] != BaseModel.SelfKey[0];
    assert |BaseModel.IdKey| == 2 && |BaseModel.CreatedKey| == 10 && |BaseModel.UpdatedKey| == 10;
  }

  /** `kwargs.get(key, "")`. */
  function Get(kwargs: BaseModel.Attrs, key: string): BaseModel.Value {
    if key in kwargs then kwargs[key] else BaseModel.Str("")
  }

  /** An object of class Review that has its identity, timestamps and three fields. */
  predicate IsReview(o: BaseModel.Instance) {
    o.typeName == TypeName && BaseModel.WellFormed(o) && Fields <= o.attrs.Keys
  }

  /** The three assignments that follow the base constructor. */
  function SetFields(o: BaseModel.Instance, kwargs: BaseModel.Attrs): (r: BaseModel.Instance)
    ensures r.typeName == o.typeName
    ensures r.attrs.Keys == o.attrs.Keys + Fields
    ensures forall k :: k in o.attrs && k !in Fields ==> r.attrs[k] == o.attrs[k]
    ensures forall f :: f in Fields ==> r.attrs[f] == Get(kwargs, f)
  {
    o.(attrs := map k | k in o.attrs.Keys + Fields :: if k in Fields then Get(kwargs, k) else o.attrs[k])
  }

  /** Setting the fields to the values they already have changes nothing. */
  lemma SetFieldsAgain(o: BaseModel.Instance, kwargs: BaseModel.Attrs)
    requires Fields <= o.attrs.Keys
    requires forall f :: f in Fields ==> f in kwargs && kwargs[f] == o.attrs[f]
    ensures SetFields(o, kwargs) == o
  {
    var r := SetFields(o, kwargs);
    forall k | k in o.attrs
      ensures r.attrs[k] == o.attrs[k]
    {
      if k in Fields {
        assert Get(kwargs, k) == kwargs[k];
      }
    }
    assert r.attrs == o.attrs;
  }

  /** `Review(**kwargs)`: the base constructor for class Review, then each field takes its
      keyword argument or `""`. Identity, timestamps and storage calls are the base
      constructor's. */
  function Construct(kwargs: BaseModel.Attrs, id: string, created: DateTime, updated: DateTime)
    : (r: Result<BaseModel.Traced, BaseModel.Error>)
    ensures var base := BaseModel.Construct(TypeName, kwargs, id, created, updated);
      && (r.Success? <==> base.Success?)
      && (r.Failure? ==> r == base)
      && (r.Success? ==>
            && r.value.calls == base.value.calls
            && r.value.obj.attrs.Keys == base.value.obj.attrs.Keys + Fields
            && forall k :: k in base.value.obj.attrs && k !in Fields ==>
                 r.value.obj.attrs[k] == base.value.obj.attrs[k])
    ensures r.Success? ==> IsReview(r.value.obj)
    ensures r.Success? ==> forall f :: f in Fields && f in kwargs ==> r.value.obj.attrs[f] == kwargs[f]
    ensures r.Success? ==> forall f :: f in Fields && f !in kwargs ==>
                             r.value.obj.attrs[f] == BaseModel.Str("")
    ensures |kwargs| == 0 ==> r.Success? && r.value.calls == [BaseModel.New(TypeName, id)]
    ensures |kwargs| != 0 && r.Success? ==> r.value.calls == []
  {
    match BaseModel.Construct(TypeName, kwargs, id, created, updated)
    case Failure(e) => Failure(e)
    case Success(b) => SetFieldsWellFormed(b.obj, kwargs); Success(b.(obj := SetFields(b.obj, kwargs)))
  }

  /** The fields are not the id or a timestamp, so setting them keeps those. */
  lemma SetFieldsWellFormed(o: BaseModel.Instance, kwargs: BaseModel.Attrs)
    requires BaseModel.WellFormed(o)
    ensures BaseModel.WellFormed(SetFields(o, kwargs))
  {
    KeysDistinct();
    var r := SetFields(o, kwargs);
    assert r.attrs[BaseModel.CreatedKey] == o.attrs[BaseModel.CreatedKey];
    assert r.attrs[BaseModel.UpdatedKey] == o.attrs[BaseModel.UpdatedKey];
  }

  /** `Review.to_dict()`: the base dictionary, with the three fields set again to the
      instance's own values. No key of the base dictionary is removed or renamed. */
  function ToDict(o: BaseModel.Instance): (d: BaseModel.Attrs)
    requires Fields <= o.attrs.Keys
    ensures d.Keys == BaseModel.ToDict(o).Keys
    ensures forall k :: k in d && k !in Fields ==> d[k] == BaseModel.ToDict(o)[k]
    ensures forall f :: f in Fields ==> d[f] == o.attrs[f]
  {
    var base := BaseModel.ToDict(o);
    map k | k in base :: if k in Fields then o.attrs[k] else base[k]
  }

  /** `Review.__str__`: the same text as the base class's `__str__`, so a review reads
      `"[Review] (<id>) <repr of __dict__>"`. */
  function Describe(o: BaseModel.Instance, repr: BaseModel.Attrs -> string): (r: string)
    requires BaseModel.IdKey in o.attrs
    ensures var id := BaseModel.Text(o.attrs[BaseModel.IdKey]);
      o.typeName == TypeName ==>
        && |r| >= 12 + |id| && r[..10] == "[Review] (" && r[10..10 + |id|] == id
        && r[10 + |id|..] == ") " + repr(o.attrs)
  {
    BaseModel.Describe(o, repr)
  }

  /** The description of a review reads back as its class, its id and the rendering of
      its attributes. */
  lemma DescribeNamesReview(o: BaseModel.Instance, repr: BaseModel.Attrs -> string)
    requires BaseModel.IdKey in o.attrs && o.typeName == TypeName
    requires ')' !in BaseModel.Text(o.attrs[BaseModel.IdKey])
    ensures BaseModel.ReadHeader(Describe(o, repr))
              == Some((TypeName, BaseModel.Text(o.attrs[BaseModel.IdKey]), repr(o.attrs)))
  {
    BaseModel.DescribeHeader(o, repr);
  }

  /** Only the timestamps and the three fields hold datetimes; the fields come back from
      `to_dict` as they are, so a datetime there survives the round trip. */
  predicate DatetimesInTimestampsOrFields(o: BaseModel.Instance) {
    forall k :: k in o.attrs && o.attrs[k].Time? ==> k in BaseModel.TimestampKeys || k in Fields
  }

  /** The fields are not timestamp keys, so restoring keeps their values as they are. */
  lemma FieldsKept(f: string, v: BaseModel.Value)
    requires f in Fields
    ensures BaseModel.Decode(f, v) == Some(v)
  {
  }

  /** Every entry of `to_dict` of a review decodes to the review's own attribute when its
      timestamps read back. */
  lemma DecodeToDict(o: BaseModel.Instance)
    requires IsReview(o) && DatetimesInTimestampsOrFields(o) && BaseModel.HasFraction(o)
    ensures forall k :: k in ToDict(o) ==> BaseModel.Decode(k, ToDict(o)[k]) == Some(o.attrs[k])
  {
    forall k | k in ToDict(o)
      ensures BaseModel.Decode(k, ToDict(o)[k]) == Some(o.attrs[k])
    {
      DecodeToDictAt(o, k);
    }
  }

  /** A timestamp with a fraction decodes back from its `isoformat` text. */
  lemma TimeRendered(k: string, v: BaseModel.Value)
    requires k in BaseModel.TimestampKeys && v.Time? && v.t.microsecond != 0
    ensures BaseModel.Decode(k, BaseModel.Render(v, Format)) == Some(v)
  {
    ParseFormat(v.t);
    BaseModel.DecodeRender(k, v, Format);
  }

  /** One entry of `DecodeToDict`. */
  lemma DecodeToDictAt(o: BaseModel.Instance, k: string)
    requires IsReview(o) && DatetimesInTimestampsOrFields(o) && BaseModel.HasFraction(o)
    requires k in o.attrs
    ensures BaseModel.Decode(k, ToDict(o)[k]) == Some(o.attrs[k])
  {
    var v := o.attrs[k];
    if k in Fields {
      FieldsKept(k, v);
    } else {
      assert ToDict(o)[k] == BaseModel.Render(v, Format);
      if k in BaseModel.TimestampKeys {
        BaseModel.TimestampFraction(o, k);
        TimeRendered(k, v);
      } else {
        BaseModel.DecodeRender(k, v, Format);
      }
    }
  }

  /** `Review(**r.to_dict())` gives `r` back, unregistered, when both timestamps have a
      fraction and its datetimes sit only there or in the three fields; an attribute
      named `self` makes the call raise instead. */
  lemma RoundTrip(o: BaseModel.Instance, id: string, created: DateTime, updated: DateTime)
    requires IsReview(o) && DatetimesInTimestampsOrFields(o) && BaseModel.HasFraction(o)
    ensures BaseModel.SelfKey !in o.attrs ==>
      Construct(ToDict(o), id, created, updated) == Success(BaseModel.Traced(o, []))
    ensures BaseModel.SelfKey in o.attrs ==>
      Construct(ToDict(o), id, created, updated) == Failure(BaseModel.BindError)
  {
    var d := ToDict(o);
    if BaseModel.SelfKey !in o.attrs {
      DecodeToDict(o);
      BaseModel.ConstructDecoded(o, d, id, created, updated);
      SetFieldsAgain(o, d);
    }
  }

  /** A datetime under a key other than the timestamps and the fields comes back from
      `to_dict` as text, so such a review is never given back. */
  lemma RoundTripNeedsPlain(o: BaseModel.Instance, id: string, created: DateTime, updated: DateTime)
    requires IsReview(o) && !DatetimesInTimestampsOrFields(o)
    ensures Construct(ToDict(o), id, created, updated) != Success(BaseModel.Traced(o, []))
  {
    var k :| k in o.attrs && o.attrs[k].Time? && k !in BaseModel.TimestampKeys && k !in Fields;
    var d := ToDict(o);
    var r := Construct(d, id, created, updated);
    if r.Success? {
      var base := BaseModel.Construct(TypeName, d, id, created, updated);
      assert d[k] == BaseModel.Render(o.attrs[k], Format);
      assert Some(base.value.obj.attrs[k]) == BaseModel.Decode(k, d[k]);
      assert r.value.obj.attrs[k].Str?;
    }
  }

  /** When either timestamp of `r` has no fraction, `Review(**r.to_dict())` raises: the
      `ValueError` of `strptime`, unless a `self` attribute makes binding fail first. */
  lemma RoundTripFails(o: BaseModel.Instance, id: string, created: DateTime, updated: DateTime)
    requires IsReview(o) && !BaseModel.HasFraction(o)
    ensures Construct(ToDict(o), id, created, updated).Failure?
    ensures BaseModel.SelfKey !in o.attrs ==>
      Construct(ToDict(o), id, created, updated) == Failure(BaseModel.ParseError)
  {
    var d := ToDict(o);
    assert BaseModel.IdKey in d;
    ParseFormat(o.attrs[BaseModel.CreatedKey].t);
    ParseFormat(o.attrs[BaseModel.UpdatedKey].t);
    BaseModel.RestorableTimestamps(d);
  }

  /** `Review(place_id="p1")`: the keyword argument makes it a restore, so nothing is
      registered, yet id and timestamps are the fresh ones and the other fields `""`. */
  lemma PlaceOnlyNotRegistered(id: string, created: DateTime, updated: DateTime)
    ensures var r := Construct(map[PlaceKey := BaseModel.Str("p1")], id, created, updated);
      && r.Success? && r.value.calls == []
      && r.value.obj.attrs == map[BaseModel.IdKey := BaseModel.Str(id),
                                  BaseModel.CreatedKey := BaseModel.Time(created),
                                  BaseModel.UpdatedKey := BaseModel.Time(updated),
                                  PlaceKey := BaseModel.Str("p1"), UserKey := BaseModel.Str(""),
                                  TextKey := BaseModel.Str("")]
  {
    var kwargs := map[PlaceKey := BaseModel.Str("p1")];
    var initial := BaseModel.Fresh(TypeName, id, created, updated);
    KeysDistinct();
    BaseModel.KeysDistinct();
    BaseModel.FreshFacts(TypeName, id, created, updated);
    assert BaseModel.Decode(PlaceKey, kwargs[PlaceKey]).Some?;
    var base := BaseModel.Restore(initial, kwargs).value;
    assert base.attrs == initial.attrs[PlaceKey := BaseModel.Str("p1")];
  }

  /** The keyword arguments of the scenario below. */
  function ThreeFields(): BaseModel.Attrs {
    map[PlaceKey := BaseModel.Str("p1"), UserKey := BaseModel.Str("u1"), TextKey := BaseModel.Str("ok")]
  }

  /** A dictionary of the three fields only holds text, so a review carrying them renders
      as the base attributes with its two timestamps as `isoformat` text. */
  lemma ToDictOfTextFields(id: string, created: DateTime, updated: DateTime, fields: BaseModel.Attrs)
    requires fields.Keys == Fields && forall f :: f in fields ==> fields[f].Str?
    ensures var o := BaseModel.Instance(TypeName, BaseModel.Fresh(TypeName, id, created, updated).attrs + fields);
      ToDict(o) == map[BaseModel.IdKey := BaseModel.Str(id),
                       BaseModel.CreatedKey := BaseModel.Str(Format(created)),
                       BaseModel.UpdatedKey := BaseModel.Str(Format(updated))] + fields
  {
    var o := BaseModel.Instance(TypeName, BaseModel.Fresh(TypeName, id, created, updated).attrs + fields);
    KeysDistinct();
    BaseModel.ToDictFresh(TypeName, id, created, updated, fields);
    ToDictText(o);
  }

  /** When the three fields hold text, `to_dict` of the base already has them right, so
      setting them again changes nothing. */
  lemma ToDictText(o: BaseModel.Instance)
    requires Fields <= o.attrs.Keys && forall f :: f in Fields ==> o.attrs[f].Str?
    ensures ToDict(o) == BaseModel.ToDict(o)
  {
  }

  /** Keyword arguments that name all three fields and nothing else restore over the
      fresh attributes: the review is the fresh object plus those fields, unregistered. */
  lemma ConstructFromFields(kwargs: BaseModel.Attrs, id: string, created: DateTime, updated: DateTime)
    requires kwargs.Keys == Fields
    ensures Construct(kwargs, id, created, updated)
      == Success(BaseModel.Traced(BaseModel.Instance(TypeName,
           BaseModel.Fresh(TypeName, id, created, updated).attrs + kwargs), []))
  {
    KeysDistinct();
    BaseModel.KeysDistinct();
    var initial := BaseModel.Fresh(TypeName, id, created, updated);
    var o := BaseModel.Instance(TypeName, initial.attrs + kwargs);
    assert BaseModel.Restorable(kwargs) by {
      forall k | k in kwargs
        ensures BaseModel.Decode(k, kwargs[k]).Some?
      {
        assert k !in BaseModel.TimestampKeys;
      }
    }
    var base := BaseModel.Restore(initial, kwargs).value;
    assert base.attrs == o.attrs;
    assert |kwargs| != 0 by {
      assert PlaceKey in kwargs;
    }
    SetFieldsAgain(o, kwargs);
  }

  /** A review built from text values for exactly its three fields serializes to its id,
      its two timestamp texts and those values: no class tag is added. */
  lemma TextFieldsSerialized(kwargs: BaseModel.Attrs, id: string, created: DateTime,
                             updated: DateTime)
    requires kwargs.Keys == Fields && forall f :: f in kwargs ==> kwargs[f].Str?
    ensures var r := Construct(kwargs, id, created, updated);
      && r.Success?
      && ToDict(r.value.obj) == map[BaseModel.IdKey := BaseModel.Str(id),
                                    BaseModel.CreatedKey := BaseModel.Str(Format(created)),
                                    BaseModel.UpdatedKey := BaseModel.Str(Format(updated))] + kwargs
  {
    ConstructFromFields(kwargs, id, created, updated);
    ToDictOfTextFields(id, created, updated, kwargs);
  }

  /** The scenario `Review(place_id="p1", user_id="u1", text="ok").to_dict()`. */
  lemma ThreeFieldsSerialized(id: string, created: DateTime, updated: DateTime)
    ensures var r := Construct(ThreeFields(), id, created, updated);
      && r.Success?
      && ToDict(r.value.obj) == map[BaseModel.IdKey := BaseModel.Str(id),
                                    BaseModel.CreatedKey := BaseModel.Str(Format(created)),
                                    BaseModel.UpdatedKey := BaseModel.Str(Format(updated))] + ThreeFields()
  {
    var kwargs := ThreeFields();
    assert kwargs.Keys == Fields;
    TextFieldsSerialized(kwargs, id, created, updated);
  }
}

=== FILE: timestamps.dfy ===
/** Naive datetimes and the text pair the entity layer relies on: `datetime.isoformat()`
    for writing and `datetime.strptime(s, "%Y-%m-%dT%H:%M:%S.%f")` for reading. */
module Timestamps {
  import opened Wrappers
  import opened Digits

  datatype Timestamp = Timestamp(year: int, month: int, day: int, hour: int, minute: int,
                                 second: int, microsecond: int)
  {
    /** The ranges `datetime`'s constructor enforces. */
    predicate Valid() {
      && 1 <= year <= 9999
      && 1 <= month <= 12
      && 1 <= day <= DaysInMonth(year, month)
      && 0 <= hour < 24
      && 0 <= minute < 60
      && 0 <= second < 60
      && 0 <= microsecond < 1000000
    }
  }

  /** A value Python's `datetime` can hold. */
  type DateTime = t: Timestamp | t.Valid() witness Timestamp(1, 1, 1, 0, 0, 0, 0)

  predicate IsLeap(year: int) {
    year % 4 == 0 && (year % 100 != 0 || year % 400 == 0)
  }

  function DaysInMonth(year: int, month: int): int {
    if month == 2 then (if IsLeap(year) then 29 else 28)
    else if month == 4 || month == 6 || month == 9 || month == 11 then 30
    else 31
  }

  /** Lexicographic order of the fields: `a <= b` on datetimes. */
  predicate NotAfter(a: Timestamp, b: Timestamp) {
    || a.year < b.year
    || (a.year == b.year && a.month < b.month)
    || (a.year == b.year && a.month == b.month && a.day < b.day)
    || (a.year == b.year && a.month == b.month && a.day == b.day && a.hour < b.hour)
    || (a.year == b.year && a.month == b.month && a.day == b.day && a.hour == b.hour
        && a.minute < b.minute)
    || (a.year == b.year && a.month == b.month && a.day == b.day && a.hour == b.hour
        && a.minute == b.minute && a.second < b.second)
    || (a.year == b.year && a.month == b.month && a.day == b.day && a.hour == b.hour
        && a.minute == b.minute && a.second == b.second && a.microsecond <= b.microsecond)
  }

  // ---------------------------------------------------------------------------
  // Writing
  // ---------------------------------------------------------------------------

  /** `YYYY-MM-DD<sep>HH:MM:SS`, the part of `isoformat` that is always present. */
  function WholeSeconds(t: DateTime, sep: char): (r: string)
    ensures |r| == 19 && AllDigits(r[..4]) && r[4] == '-' && r[7] == '-' && r[10] == sep
    ensures r[13] == ':' && r[16] == ':'
  {
    Pad(t.year, 4) + "-" + Pad(t.month, 2) + "-" + Pad(t.day, 2) + [sep]
      + Pad(t.hour, 2) + ":" + Pad(t.minute, 2) + ":" + Pad(t.second, 2)
  }

  /** `datetime.isoformat(sep)`: the `.ffffff` fraction is written only when the
      microsecond is not 0. `str(datetime)` is `IsoFormat(t, ' ')`. */
  function IsoFormat(t: DateTime, sep: char): (r: string)
    ensures t.microsecond == 0 ==> r == WholeSeconds(t, sep)
    ensures t.microsecond != 0 ==> |r| == 26 && r[..19] == WholeSeconds(t, sep) && r[19] == '.'
    ensures t.microsecond != 0 ==> AllDigits(r[20..]) && ValueOf(r[20..]) == t.microsecond
  {
    var whole := WholeSeconds(t, sep);
    if t.microsecond != 0 then
      var frac := Pad(t.microsecond, 6);
      ValueOfPad(t.microsecond, 6);
      FractionAfter(whole, frac);
      whole + ("." + frac)
    else whole
  }

  /** Where the whole seconds and the fraction sit in text that joins them with `.`. */
  lemma FractionAfter(whole: string, frac: string)
    ensures var r := whole + ("." + frac);
      && |r| == |whole| + 1 + |frac| && r[..|whole|] == whole && r[|whole|] == '.'
      && r[|whole| + 1..] == frac
  {
    var r := whole + ("." + frac);
    assert r[|whole|..] == "." + frac;
  }

  /** `datetime.isoformat()` with its default separator, as `to_dict` calls it. */
  function Format(t: DateTime): string {
    IsoFormat(t, 'T')
  }

  /** `datetime.isoformat(timespec="microseconds")`: the text `"%Y-%m-%dT%H:%M:%S.%f"`
      describes, with the year at four digits and the fraction always written. */
  function FormatFull(t: DateTime): string {
    WholeSeconds(t, 'T') + "." + Pad(t.microsecond, 6)
  }

  // ---------------------------------------------------------------------------
  // Reading
  // ---------------------------------------------------------------------------

  /** Splits off a field of one or two characters that is followed by a separator from
      `seps`. The fields of the format are digits and the separators are not, so the
      regular expression has at most one way to end each field. */
  function SplitField(s: string, seps: set<char>): (r: Option<(string, string)>)
    ensures r.Some? ==> 1 <= |r.value.0| <= 2 && |s| == |r.value.0| + 1 + |r.value.1|
  {
    if |s| >= 2 && s[1] in seps then Some((s[..1], s[2..]))
    else if |s| >= 3 && s[2] in seps then Some((s[..2], s[3..]))
    else None
  }

  // The texts `_strptime` accepts for each directive.

  /** `%m`: `1[0-2]|0[1-9]|[1-9]`. */
  predicate MonthText(f: string) {
    || (|f| == 1 && '1' <= f[0] <= '9')
    || (|f| == 2 && f[0] == '0' && '1' <= f[1] <= '9')
    || (|f| == 2 && f[0] == '1' && '0' <= f[1] <= '2')
  }

  /** `%d`: `3[01]|[12]\d|0[1-9]|[1-9]| [1-9]`. */
  predicate DayText(f: string) {
    || (|f| == 1 && '1' <= f[0] <= '9')
    || (|f| == 2 && (f[0] == '0' || f[0] == ' ') && '1' <= f[1] <= '9')
    || (|f| == 2 && '1' <= f[0] <= '2' && IsDigit(f[1]))
    || (|f| == 2 && f[0] == '3' && '0' <= f[1] <= '1')
  }

  /** `%H`: `2[0-3]|[0-1]\d|\d`. */
  predicate HourText(f: string) {
    || (|f| == 1 && IsDigit(f[0]))
    || (|f| == 2 && '0' <= f[0] <= '1' && IsDigit(f[1]))
    || (|f| == 2 && f[0] == '2' && '0' <= f[1] <= '3')
  }

  /** `%M`: `[0-5]\d|\d`. */
  predicate MinuteText(f: string) {
    || (|f| == 1 && IsDigit(f[0]))
    || (|f| == 2 && '0' <= f[0] <= '5' && IsDigit(f[1]))
  }

  /** `%S`: `6[0-1]|[0-5]\d|\d`; 60 and 61 pass the text check and are then refused
      by `datetime`'s constructor. */
  predicate SecondText(f: string) {
    MinuteText(f) || (|f| == 2 && f[0] == '6' && '0' <= f[1] <= '1')
  }

  /** `%f`: `[0-9]{1,6}`, and nothing may follow it. */
  predicate FractionText(f: string) {
    1 <= |f| <= 6 && AllDigits(f)
  }

  /** `int()` of a field; `int` ignores the leading blank `%d` admits. */
  function FieldValue(f: string): nat
    requires |f| >= 1 && (AllDigits(f) || (f[0] == ' ' && AllDigits(f[1..])))
  {
    if f[0] == ' ' then ValueOf(f[1..]) else ValueOf(f)
  }

  /** The microsecond a `%f` text stands for: it is padded with zeros on the right. */
  function FractionValue(f: string): nat
    requires FractionText(f)
  {
    ValueOf(f) * Pow10(6 - |f|)
  }

  /** The texts the pattern's groups capture, one per directive. */
  datatype Groups = Groups(year: string, month: string, day: string, hour: string,
                           minute: string, second: string, fraction: string)

  /** Matches the pattern of `"%Y-%m-%dT%H:%M:%S.%f"` against the whole of `s`, splitting
      it at the literal characters; the groups are checked by `Accepted`. Literal
      characters match case-insensitively, as `_strptime` compiles its pattern with
      `IGNORECASE`. */
  function Scan(s: string): (r: Option<Groups>)
    ensures r.Some? ==> |s| >= 15 + |r.value.fraction| && s[4] == '-'
  {
    if |s| < 5 || s[4] != '-' then None
    else
      var month :- SplitField(s[5..], {'-'});
      var day :- SplitField(month.1, {'T', 't'});
      var hour :- SplitField(day.1, {':'});
      var minute :- SplitField(hour.1, {':'});
      var second :- SplitField(minute.1, {'.'});
      Some(Groups(s[..4], month.0, day.0, hour.0, minute.0, second.0, second.1))
  }

  /** Every group matches its directive's sub-pattern; `%Y` is `\d\d\d\d`. */
  predicate Accepted(g: Groups) {
    && |g.year| == 4 && AllDigits(g.year)
    && MonthText(g.month) && DayText(g.day) && HourText(g.hour)
    && MinuteText(g.minute) && SecondText(g.second) && FractionText(g.fraction)
  }

  /** The field values `_strptime` computes from accepted groups. */
  function Convert(g: Groups): Timestamp
    requires Accepted(g)
  {
    Timestamp(ValueOf(g.year), FieldValue(g.month), FieldValue(g.day), FieldValue(g.hour),
              FieldValue(g.minute), FieldValue(g.second), FractionValue(g.fraction))
  }

  /** `datetime.strptime(s, "%Y-%m-%dT%H:%M:%S.%f")`: `None` where Python raises
      `ValueError`, either because the text does not match or because `date` refuses
      the fields (a 30th of February, year 0) or `datetime` does (second 60). */
  function Parse(s: string): (r: Option<DateTime>)
    ensures r.Some? ==> |s| >= 16 && s[4] == '-'
  {
    var g :- Scan(s);
    if !Accepted(g) then None
    else
      var t := Convert(g);
      if t.Valid() then Some(t) else None
  }

  // ---------------------------------------------------------------------------
  // The round trip between writing and reading
  // ---------------------------------------------------------------------------

  /** The separators of the format are not digits. */
  predicate NoDigits(seps: set<char>) {
    forall c :: c in seps ==> !IsDigit(c)
  }

  lemma SplitTwoDigits(f: string, sep: char, rest: string, seps: set<char>)
    requires |f| == 2 && AllDigits(f) && sep in seps && NoDigits(seps)
    ensures SplitField(f + [sep] + rest, seps) == Some((f, rest))
  {
    var s := f + [sep] + rest;
    assert s[1] == f[1] && s[2] == sep;
    assert s[..2] == f && s[3..] == rest;
  }

  /** Two padded digits pass the text check of every directive whose range holds the
      number, and read back as the number. */
  lemma TwoDigitField(n: nat)
    requires n < 100
    ensures FieldValue(Pad(n, 2)) == n
    ensures 1 <= n <= 12 ==> MonthText(Pad(n, 2))
    ensures 1 <= n <= 31 ==> DayText(Pad(n, 2))
    ensures n < 24 ==> HourText(Pad(n, 2))
    ensures n < 60 ==> MinuteText(Pad(n, 2)) && SecondText(Pad(n, 2))
  {
    PadTwo(n);
    ValueOfPad(n, 2);
  }

  /** The fields of a datetime at the widths `FormatFull` writes them. */
  function Padded(t: DateTime): Groups {
    Groups(Pad(t.year, 4), Pad(t.month, 2), Pad(t.day, 2), Pad(t.hour, 2), Pad(t.minute, 2),
           Pad(t.second, 2), Pad(t.microsecond, 6))
  }

  /** Groups put back together with the format's literal characters, nested field by
      field the way `Scan` takes a text apart. */
  function Assemble(g: Groups): string {
    g.year + "-" + (g.month + "-" + (g.day + "T" + (g.hour + ":" + (g.minute + ":"
      + (g.second + "." + g.fraction)))))
  }

  /** `FormatFull` writes the padded fields joined by the format's literal characters. */
  lemma FullShape(t: DateTime)
    ensures FormatFull(t) == Assemble(Padded(t))
  {
  }

  /** The groups of the text `FormatFull` writes are the padded fields. */
  lemma ScanFormatFull(t: DateTime)
    ensures Scan(FormatFull(t)) == Some(Padded(t))
  {
    var y, mo, d, h, mi, se, us := Pad(t.year, 4), Pad(t.month, 2), Pad(t.day, 2),
      Pad(t.hour, 2), Pad(t.minute, 2), Pad(t.second, 2), Pad(t.microsecond, 6);
    var r5 := se + "." + us;
    var r4 := mi + ":" + r5;
    var r3 := h + ":" + r4;
    var r2 := d + "T" + r3;
    var r1 := mo + "-" + r2;
    var s := y + "-" + r1;
    FullShape(t);
    assert FormatFull(t) == s;
    assert s[..4] == y && s[4] == '-' && s[5..] == r1;
    SplitTwoDigits(mo, '-', r2, {'-'});
    SplitTwoDigits(d, 'T', r3, {'T', 't'});
    SplitTwoDigits(h, ':', r4, {':'});
    SplitTwoDigits(mi, ':', r5, {':'});
    SplitTwoDigits(se, '.', us, {'.'});
  }

  /** The padded fields of a datetime are accepted and convert back to it. */
  lemma ConvertPadded(t: DateTime)
    ensures Accepted(Padded(t)) && Convert(Padded(t)) == t
  {
    ValueOfPad(t.year, 4);
    ValueOfPad(t.microsecond, 6);
    TwoDigitField(t.month);
    TwoDigitField(t.day);
    TwoDigitField(t.hour);
    TwoDigitField(t.minute);
    TwoDigitField(t.second);
  }

  /** `Parse` reads back every datetime that `FormatFull` writes. */
  lemma ParseFormatFull(t: DateTime)
    ensures Parse(FormatFull(t)) == Some(t)
  {
    ScanFormatFull(t);
    ConvertPadded(t);
  }

  /** Without a fraction there is nothing for `.%f` to match, so `Parse` refuses
      every string `WholeSeconds` writes. */
  lemma ParseRejectsWholeSeconds(t: DateTime)
    ensures Parse(WholeSeconds(t, 'T')) == None
  {
    var y, mo, d, h, mi, se := Pad(t.year, 4), Pad(t.month, 2), Pad(t.day, 2),
      Pad(t.hour, 2), Pad(t.minute, 2), Pad(t.second, 2);
    assert WholeSeconds(t, 'T') == y + "-" + (mo + "-" + (d + "T" + (h + ":" + (mi + ":" + se))));
    ScanNoFraction(y, mo, d, h, mi, se);
  }

  /** Text made of the fields up to the seconds, with nothing after them, has no `.` for
      the last field to end at. */
  lemma ScanNoFraction(y: string, mo: string, d: string, h: string, mi: string, se: string)
    requires |y| == 4 && |mo| == 2 && |d| == 2 && |h| == 2 && |mi| == 2 && |se| == 2
    requires AllDigits(mo) && AllDigits(d) && AllDigits(h) && AllDigits(mi) && AllDigits(se)
    ensures Scan(y + "-" + (mo + "-" + (d + "T" + (h + ":" + (mi + ":" + se))))) == None
  {
    var r4 := mi + ":" + se;
    var r3 := h + ":" + r4;
    var r2 := d + "T" + r3;
    var r1 := mo + "-" + r2;
    var s := y + "-" + r1;
    assert s[4] == '-' && s[5..] == r1;
    SplitTwoDigits(mo, '-', r2, {'-'});
    SplitTwoDigits(d, 'T', r3, {'T', 't'});
    SplitTwoDigits(h, ':', r4, {':'});
    SplitTwoDigits(mi, ':', se, {':'});
    assert IsDigit(se[1]);
  }

  /** The round trip `to_dict` and the restore path depend on: `strptime` reads back
      what `isoformat` writes exactly when the microsecond is not 0. */
  lemma ParseFormat(t: DateTime)
    ensures Parse(Format(t)).Some? <==> t.microsecond != 0
    ensures t.microsecond != 0 ==> Parse(Format(t)) == Some(t)
  {
    if t.microsecond != 0 {
      assert Format(t) == FormatFull(t);
      ParseFormatFull(t);
    } else {
      assert Format(t) == WholeSeconds(t, 'T');
      ParseRejectsWholeSeconds(t);
    }
  }

  /** `isoformat` itself loses nothing: different datetimes give different texts, so the
      failed round trip at microsecond 0 is the reader's doing. */
  lemma FormatInjective(a: DateTime, b: DateTime)
    requires Format(a) == Format(b)
    ensures a == b
  {
    if a.microsecond == 0 && b.microsecond == 0 {
      assert FormatFull(a) == Format(a) + "." + Pad(0, 6);
      assert FormatFull(b) == Format(b) + "." + Pad(0, 6);
      ParseFormatFull(a);
      ParseFormatFull(b);
    } else {
      ParseFormat(a);
      ParseFormat(b);
    }
  }

  /** A field split off by `SplitField` is a prefix of one or two characters followed by
      one of the separators. */
  lemma SplitFieldShape(x: string, seps: set<char>)
    requires SplitField(x, seps).Some?
    ensures var (f, rest) := SplitField(x, seps).value;
      1 <= |f| <= 2 && |f| < |x| && x[|f|] in seps && x == f + [x[|f|]] + rest
  {
  }

  /** The texts `FormatFull` writes: full width, upper-case `T`, no blank before the day. */
  predicate Canonical(s: string) {
    |s| == 26 && s[10] == 'T' && s[8] != ' '
  }

  /** A canonical string that scans is its groups at full width, put back together. */
  lemma ScanCanonical(s: string)
    requires Canonical(s) && Scan(s).Some? && Accepted(Scan(s).value)
    ensures var g := Scan(s).value;
      && |g.year| == 4 && |g.month| == 2 && |g.day| == 2 && |g.hour| == 2 && |g.minute| == 2
      && |g.second| == 2 && |g.fraction| == 6 && g.day[0] != ' ' && s == Assemble(g)
  {
    var (mo, r2) := SplitField(s[5..], {'-'}).value;
    SplitFieldShape(s[5..], {'-'});
    var (d, r3) := SplitField(r2, {'T', 't'}).value;
    SplitFieldShape(r2, {'T', 't'});
    var (h, r4) := SplitField(r3, {':'}).value;
    SplitFieldShape(r3, {':'});
    var (mi, r5) := SplitField(r4, {':'}).value;
    SplitFieldShape(r4, {':'});
    var (se, f) := SplitField(r5, {'.'}).value;
    SplitFieldShape(r5, {'.'});
    assert Scan(s).value == Groups(s[..4], mo, d, h, mi, se, f);
    assert s == s[..4] + "-" + s[5..];
  }

  /** A two-character field without a blank is two digits, which padding writes back. */
  lemma PadTwoDigitText(f: string)
    requires |f| == 2 && f[0] != ' '
    requires MonthText(f) || DayText(f) || HourText(f) || SecondText(f)
    ensures FieldValue(f) < 100 && Pad(FieldValue(f), 2) == f
  {
    assert IsDigit(f[0]) && IsDigit(f[1]);
    assert AllDigits(f);
    PadValueOf(f);
  }

  /** Full-width groups without a blank before the day are what `FormatFull` writes for
      the datetime they convert to. */
  lemma FormatFullConvert(g: Groups)
    requires Accepted(g) && Convert(g).Valid()
    requires |g.month| == 2 && |g.day| == 2 && |g.hour| == 2 && |g.minute| == 2
    requires |g.second| == 2 && |g.fraction| == 6 && g.day[0] != ' '
    ensures FormatFull(Convert(g)) == Assemble(g)
  {
    var t: DateTime := Convert(g);
    PadValueOf(g.year);
    PadTwoDigitText(g.month);
    PadTwoDigitText(g.day);
    PadTwoDigitText(g.hour);
    PadTwoDigitText(g.minute);
    PadTwoDigitText(g.second);
    PadValueOf(g.fraction);
    assert Padded(t) == g;
    FullShape(t);
  }

  /** On canonical text `FormatFull` undoes `Parse`: together with `ParseFormatFull`, the
      two are inverse bijections between datetimes and canonical texts. */
  lemma FormatFullParse(s: string)
    requires Canonical(s) && Parse(s).Some?
    ensures FormatFull(Parse(s).value) == s
  {
    ScanCanonical(s);
    FormatFullConvert(Scan(s).value);
  }
}

=== FILE: wrappers.dfy ===
/** The outcomes of the reader and the constructors: a text that may not parse, a
    constructor that may raise. Both work with `:-`. */
module Wrappers {

  /** A value that may be absent; `None` is the failure case of `:-`. */
  datatype Option<+T> = None | Some(value: T) {
    predicate IsFailure() {
      None?
    }

    function PropagateFailure<U>(): Option<U>
      requires None?
    {
      None
    }

    function Extract(): T
      requires Some?
    {
      value
    }
  }

  /** Either a computed value or the error a Python exception would carry. */
  datatype Result<+T, +E> = Success(value: T) | Failure(error: E) {
    predicate IsFailure() {
      Failure?
    }

    function PropagateFailure<U>(): Result<U, E>
      requires Failure?
    {
      Failure(error)
    }

    function Extract(): T
      requires Success?
    {
      value
    }
  }
}
